=== FILE: README.md ===
# Environment builder of the k0s process supervisor, in Dafny

The k0s supervisor keeps one managed component (etcd, kube-apiserver, ...)
running as a child process. Before each launch it derives the child's
environment from its own with `getEnv`:

- it moves the entries that carry the component prefix (`ETCD_` for
  `etcd`) to the front;
- it splits each entry on its first `=`;
- it promotes a prefixed name by stripping the prefix and recording the
  stripped name as an override. Proxy names (`HTTP_PROXY`, `HTTPS_PROXY`,
  `NO_PROXY`) are always promoted. Other names are promoted only when
  `KeepEnvPrefix` is false;
- it drops every entry whose name is already an override;
- it puts `<dataDir>/bin:` in front of a resulting `PATH`.

This project models that function and proves what the child receives.

Layout:

- `env_text.dfy` (`EnvText`): prefix tests, and the split of `KEY=VALUE` on
  the first `=` with its inverse `Join`.
- `env_order.dfy` (`EnvOrder`): the reordering step as a stable partition.
- `env_builder.dfy` (`EnvBuilder`): variables (`Var`), parsing and
  formatting, name resolution, the scan `Process`, the whole builder
  `GetEnv`, and `ScanInPlace`, the in-place loop of k0s's `getEnv` as a
  method.
- `env_spec.dfy` (`EnvSpec`): `Expected`, a reference definition without
  scan state. The main theorem says the scan equals `Expected` for every
  prefixed-first order without doubly-prefixed names.
- `env_properties.dfy` (`EnvProperties`): the properties of the child's
  environment, stated entry by entry.

The reordering in `getEnv` is `sort.Slice` with the "less" function
`HasPrefix(env[i], prefix)`. That is not a strict weak order, and
`sort.Slice` is not stable. Go's sort is deterministic and returns some
permutation of the environment that puts the prefixed entries first (an
`EnvOrder.Reordering`); which one is not specified. For up to 12 entries,
for instance, its insertion sort carries each prefixed entry to the front,
which reverses the prefixed group. Even the partitioning rests on how the
sort is implemented, since `sort.Slice` promises nothing for a "less"
function that is not a strict weak order; its insertion sort, its
pattern-defeating quicksort and its heap sort all leave the result
partitioned under this "less". The model treats it as follows:

- `ChildVars` and `ChildEnv` are the scan applied to any such order.
- `GetEnv` fixes one order, the stable partition, so that it is a function.
  That need not be the order `sort.Slice` returns, so no theorem about the
  child's environment is stated for `GetEnv` alone.
- `ProcessMatchesExpected`, `ChildOrder`, `ChildMembers`,
  `ReorderInsensitive` and every lemma of `EnvProperties` take the order as
  a parameter and hold for every `Reordering`. Several of them also exclude
  doubly-prefixed names; each of those is listed under "Left out".

An entry without `=` makes `kv[1]` panic at
`pkg/supervisor/supervisor.go:206`. The model therefore requires every entry
to contain `=` (`AllWellFormed`).

## Model

| member | source | states |
|---|---|---|
| EnvText.Key | pkg/supervisor/supervisor.go:205-206 | the key is the part of the entry before its first `=`: it holds no `=`, and an `=` follows it in the entry |
| EnvText.Value | pkg/supervisor/supervisor.go:205-206 | key, `=`, value put back together give the entry again, so a value keeps any further `=` |
| EnvText.Join | pkg/supervisor/supervisor.go:228 | splitting `k=v` again gives back exactly `k` and `v` when `k` has no `=` |
| EnvBuilder.Parse | pkg/supervisor/supervisor.go:205-206 | the variable read from an entry has a name without `=`, and writing it back gives the entry |
| EnvBuilder.Format | pkg/supervisor/supervisor.go:228 | an emitted entry parses back to the variable it was written from |
| EnvBuilder.ComponentPrefix | pkg/supervisor/supervisor.go:197 | the prefix is the component name with ASCII letters upper-cased, then `_`; it holds a `=` exactly when the name does |
| EnvOrder.StablePartition | pkg/supervisor/supervisor.go:199-200 | the reordered environment is a permutation of the input, and every prefixed entry comes before every unprefixed one |
| EnvBuilder.Resolve | pkg/supervisor/supervisor.go:211-227 | a promoted name is the input name without the prefix; proxy suffixes are always promoted; every prefixed name is promoted when prefixes are not kept; with prefixes kept only proxy names are promoted; unpromoted names stay unchanged |
| EnvBuilder.ResolveKey | pkg/supervisor/supervisor.go:211-226 | the switch on the suffix in `getEnv` computes the same name and override flag as `Resolve` |
| EnvBuilder.Emit | pkg/supervisor/supervisor.go:224-231 | a variable is emitted under the name `Resolve` gives it; an emitted `PATH` has value `binDir:` plus the input value; every other emitted variable keeps its value |
| EnvBuilder.Step | pkg/supervisor/supervisor.go:205-232 | one loop iteration leaves the state alone exactly when the name is already an override; otherwise it appends exactly the emitted variable, and the override set grows by the resolved name exactly when the name was promoted |
| EnvBuilder.Process | pkg/supervisor/supervisor.go:202-235 | the output is never longer than the input, and emitted names contain no `=` |
| EnvBuilder.ChildVars | pkg/supervisor/supervisor.go:202-235 | for a reordered environment, the child's variables are never more than the entries and all have names without `=` |
| EnvBuilder.ChildEnv | pkg/supervisor/supervisor.go:202-235 | for a reordered environment, the child's environment is never longer than it, and every entry has the `KEY=VALUE` shape |
| EnvBuilder.GetEnvVars | pkg/supervisor/supervisor.go:195-235 | the variables of the child's environment, with the stable partition as the reordering: never more than the inherited entries, all names without `=` |
| EnvBuilder.GetEnv | pkg/supervisor/supervisor.go:195-236 | the child's environment is never longer than the inherited one, and every entry of it has the `KEY=VALUE` shape |
| EnvBuilder.ScanEntry | pkg/supervisor/supervisor.go:205-231 | one iteration of the loop, written on entries, keeps an entry exactly when its key is not an override, and then writes back the entry that parses to the emitted variable; it performs exactly one step of the scan |
| EnvBuilder.ScanInPlace | pkg/supervisor/supervisor.go:202-235 | writing rewritten entries back into the buffer being read, at an index that never passes the read index, yields exactly the scan's output |
| EnvBuilder.GetEnvInPlace | pkg/supervisor/supervisor.go:195-236 | reordering then scanning in place gives exactly `GetEnv` |
| EnvSpec.EntryPrefixIsNamePrefix | pkg/supervisor/supervisor.go:200-211 | the sort tests the whole entry and the loop tests the key; the two tests agree whenever the prefix has no `=` |
| EnvSpec.OverridesGrow | pkg/supervisor/supervisor.go:202-226 | the override set only grows as the scan proceeds |
| EnvSpec.OverridesArePromoted | pkg/supervisor/supervisor.go:202-226 | the scan records only promoted names as overrides: its override set is contained in the names prefixed variables of the input are promoted to |
| EnvSpec.UnpromotedEmits | pkg/supervisor/supervisor.go:207-210 | a variable whose name no variable of the input is promoted to is never skipped, wherever it stands in the scan order |
| EnvSpec.PromotionSuppressesLater | pkg/supervisor/supervisor.go:207-226 | once an emitted variable is promoted to `K`, every later variable named `K` is dropped, in any scan order |
| EnvSpec.EmitOrigins | pkg/supervisor/supervisor.go:204-233 | every output variable of the scan is the emitted form of one input variable, at strictly increasing input positions: each input yields at most one output, in input order |
| EnvSpec.EmitOriginsExact | pkg/supervisor/supervisor.go:207-210 | an input position yields an output exactly when its name is not yet an override at that point of the scan |
| EnvSpec.ProcessMatchesExpected | pkg/supervisor/supervisor.go:199-235 | for every order with prefixed names first and no doubly-prefixed name, the scan's output is the reference `Expected`, and the final override set is the set of promoted names |
| EnvSpec.ReorderInsensitive | pkg/supervisor/supervisor.go:199-200 | without doubly-prefixed names, every prefixed-first reordering of the inherited environment gives the same multiset of variables: the reference output of the input |
| EnvSpec.ChildOrder | pkg/supervisor/supervisor.go:199-235 | without doubly-prefixed names, for every order the sort may return, the child's variables are exactly the reference output of that order, with the promoted names of the inherited environment |
| EnvSpec.ChildMembers | pkg/supervisor/supervisor.go:199-235 | without doubly-prefixed names, for every order the sort may return, a variable is in the child's environment exactly when some inherited entry contributes it |
| EnvProperties.UnpromotedReachesChild | pkg/supervisor/supervisor.go:207-232 | for every environment and every order the sort may return, an entry whose own name no variable is promoted to reaches the child in its emitted form |
| EnvProperties.KeptProxyNotOverridden | pkg/supervisor/supervisor.go:214-225 | with `keepEnvPrefix` true only proxy names become overrides, and a prefixed proxy name is never one of them |
| EnvProperties.ProxyAlwaysPromoted | pkg/supervisor/supervisor.go:214-217 | for every order the sort may return, a prefixed proxy entry reaches the child as the bare proxy name with the same value, for both values of `keepEnvPrefix`; with `keepEnvPrefix` true for every environment |
| EnvProperties.StrippedWhenNotKept | pkg/supervisor/supervisor.go:218-221 | for every order the sort may return, with `keepEnvPrefix` false, every prefixed entry reaches the child under its name without the prefix, with its value (a promoted `PATH` with `binDir:` in front) |
| EnvProperties.PromotedNameIsOverride | pkg/supervisor/supervisor.go:207-226 | for every order the sort may return, once a prefixed proxy entry (or any prefixed entry when `keepEnvPrefix` is false) is promoted, every variable the child sees under its name without the prefix comes from a promoted prefixed entry (the drop itself, with multiplicities, is stated by `EnvSpec.ChildOrder`) |
| EnvProperties.KeptUnderPrefixedName | pkg/supervisor/supervisor.go:218-228 | for every order the sort may return, with `keepEnvPrefix` true, a prefixed non-proxy entry reaches the child unchanged, under its prefixed name |
| EnvProperties.UnprefixedPassesThrough | pkg/supervisor/supervisor.go:205-231 | for every environment and every order the sort may return, an unprefixed entry whose name is not an override reaches the child unchanged, with its value intact, except `PATH`, which gets `binDir:` in front |
| EnvProperties.OverrideWins | pkg/supervisor/supervisor.go:207-226 | for every order the sort may return, every variable the child sees under an override name comes from a prefixed entry promoted to that name (the drop itself, with multiplicities, is stated by `EnvSpec.ChildOrder`) |
| EnvProperties.PathAlwaysPrepended | pkg/supervisor/supervisor.go:229-231 | for every environment and every order the sort may return, every `PATH` the child sees has value `binDir:` plus the value of an inherited variable that ends up named `PATH`, a promoted `<PREFIX>PATH` included |
| EnvProperties.DoublePrefixOrderMatters | pkg/supervisor/supervisor.go:199-226 | for every component with prefixes not kept, `PREFIX+PREFIX+n` and `PREFIX+n` are both prefixed, so either order may come out of the sort; the first order yields one variable (the promoted `PREFIX+n` shadows the real one), the second yields both |

## Left out

- `Supervise`, `processWaitQuit` and `Stop` (the respawn loop and the stop
  protocol) are left out. They consist of goroutines, channels, `select`
  races, timers and a mutex-guarded process handle, and contain no
  sequential logic to state.
- Process launching and signalling (`exec.Command`, `Start`, `Signal`,
  `Wait`) are left out because they are operating-system calls.
- The pid file, run-directory setup (`dir.Init`), `DetachAttr` and
  `logWriter` are left out: they are file I/O and platform or logging code.
- `GetProcess` is left out: it is a locked getter with no logic.
- The default stop and respawn timeouts are left out: they are time
  configuration.
- `os.Environ()` is the parameter `environ`.
- `path.Join(dataDir, "bin")` is the parameter `binDir`, so `path.Join`'s
  path cleaning is not modelled.
- `strings.ToUpper` is modelled for ASCII letters only. Other characters of
  the component name are kept as they are, whereas Go maps non-ASCII letters
  through Unicode case tables.
- The algorithm inside `sort.Slice` (pattern-defeating quicksort with an
  insertion-sort cut-off) is not modelled. `GetEnv` uses a stable
  partition, and the theorems cover every `Reordering`, whatever the sort
  returns.
- Entries without `=` are excluded by a precondition, because the source
  panics on them.
- EnvProperties.ProxyAlwaysPromoted, with `keepEnvPrefix` false, is stated
  only for inputs where no prefixed name carries the prefix twice. With
  `ETCD_ETCD_HTTP_PROXY` scanned before `ETCD_HTTP_PROXY`, the latter is
  dropped and `HTTP_PROXY` is never promoted. Which of the two the sort puts
  first is unspecified (see EnvProperties.DoublePrefixOrderMatters). With
  `keepEnvPrefix` true it holds for every environment.
- EnvProperties.StrippedWhenNotKept carries the same hypothesis: with
  `ETCD_ETCD_X` scanned first, `ETCD_X` is dropped.
- EnvProperties.KeptUnderPrefixedName carries the same hypothesis: for
  component `http`, a promoted `HTTP_HTTP_PROXY` drops `HTTP_PROXY`.
- EnvProperties.OverrideWins carries the same hypothesis: with
  `[ETCD_ETCD_X, ETCD_X, X]`, the unprefixed `X` survives under the promoted
  name `X`.
- EnvProperties.PromotedNameIsOverride carries the same hypothesis, for the
  same reason as OverrideWins.
- EnvSpec.ChildOrder carries the same hypothesis: without it, the output
  depends on the order inside the prefixed group.
- EnvSpec.ChildMembers carries the same hypothesis, for the same reason as
  ChildOrder.
- EnvSpec.ReorderInsensitive carries the same hypothesis, for the same
  reason as ChildOrder.

=== FILE: env_builder.dfy ===
/**
 The environment builder of the process supervisor: from the inherited
 environment, the component name, the keep-prefix flag and the directory of
 bundled binaries, it derives the environment a supervised child starts with.

 - Entries that carry the component prefix (`ETCD_` for `etcd`) are
   processed first.
 - A prefixed name is promoted (its prefix stripped, the stripped name
   recorded as an override) when the rest is a proxy variable, or when
   prefixes are not kept.
 - Any entry whose name is already recorded as an override is dropped.
 - A resulting `PATH` gets the binary directory put in front.
 */
module EnvBuilder {
  import opened EnvText
  import opened EnvOrder

  /** One environment variable, an entry split on its first `=`. */
  datatype Var = Var(name: string, value: string)

  /** A variable that can be written back as `name=value` and split again. */
  predicate ValidVar(v: Var) {
    '=' !in v.name
  }

  predicate AllValid(vs: seq<Var>) {
    forall i :: 0 <= i < |vs| ==> ValidVar(vs[i])
  }

  /** The variable an entry stands for; writing it back gives the entry. */
  function Parse(e: string): (v: Var)
    requires WellFormed(e)
    ensures ValidVar(v) && Join(v.name, v.value) == e
  {
    Var(Key(e), Value(e))
  }

  function ParseAll(env: seq<string>): (vs: seq<Var>)
    requires AllWellFormed(env)
    ensures |vs| == |env| && AllValid(vs)
  {
    seq(|env|, i requires 0 <= i < |env| => Parse(env[i]))
  }

  /** The variable as an entry; parsing it gives the variable back. */
  function Format(v: Var): (e: string)
    requires ValidVar(v)
    ensures WellFormed(e) && Parse(e) == v
  {
    Join(v.name, v.value)
  }

  function FormatAll(vs: seq<Var>): (env: seq<string>)
    requires AllValid(vs)
    ensures |env| == |vs| && AllWellFormed(env)
  {
    seq(|vs|, i requires 0 <= i < |vs| => Format(vs[i]))
  }

  /** The proxy variables that a component prefix always overrides. */
  predicate IsProxyKey(k: string) {
    k == "HTTP_PROXY" || k == "HTTPS_PROXY" || k == "NO_PROXY"
  }

  function UpperAscii(c: char): char {
    if 'a' <= c <= 'z' then (c as int - 32) as char else c
  }

  /** The environment prefix of a component: its name upper-cased, then `_`. */
  function ComponentPrefix(component: string): (p: string)
    ensures |p| == |component| + 1 && p[|component|] == '_'
    ensures forall i :: 0 <= i < |component| ==> !('a' <= p[i] <= 'z')
    ensures forall i :: 0 <= i < |component| && !('a' <= component[i] <= 'z') ==> p[i] == component[i]
    ensures forall i :: 0 <= i < |component| && 'a' <= component[i] <= 'z' ==>
      p[i] as int == component[i] as int - 32
    ensures '=' in p <==> '=' in component
  {
    var upper := seq(|component|, i requires 0 <= i < |component| => UpperAscii(component[i]));
    assert forall i :: 0 <= i < |component| ==> (upper[i] == '=' <==> component[i] == '=');
    upper + "_"
  }

  /** What the builder needs besides the environment itself. */
  datatype Config = Config(prefix: string, keepEnvPrefix: bool, binDir: string)

  function EnvConfig(component: string, keepEnvPrefix: bool, binDir: string): Config {
    Config(ComponentPrefix(component), keepEnvPrefix, binDir)
  }

  /** The name a variable is emitted under, and whether it became an override. */
  datatype Resolution = Resolution(key: string, promoted: bool)

  /** How the name of a variable that was not dropped is rewritten. */
  function Resolve(k: string, cfg: Config): (r: Resolution)
    ensures r.promoted ==> HasPrefix(k, cfg.prefix) && cfg.prefix + r.key == k
    ensures !r.promoted ==> r.key == k
    ensures HasPrefix(k, cfg.prefix) && IsProxyKey(k[|cfg.prefix|..]) ==> r.promoted
    ensures HasPrefix(k, cfg.prefix) && !cfg.keepEnvPrefix ==> r.promoted
    ensures cfg.keepEnvPrefix && r.promoted ==> IsProxyKey(r.key)
    ensures '=' !in k ==> '=' !in r.key
  {
    if HasPrefix(k, cfg.prefix) then
      var k1 := TrimPrefix(k, cfg.prefix);
      assert k1 == k[|cfg.prefix|..];
      if IsProxyKey(k1) || !cfg.keepEnvPrefix then Resolution(k1, true)
      else Resolution(k, false)
    else Resolution(k, false)
  }

  /** The variable emitted for `v`: renamed by `Resolve`, and a `PATH` gets `binDir:` in front. */
  function Emit(v: Var, cfg: Config): (r: Var)
    ensures r.name == Resolve(v.name, cfg).key
    ensures ValidVar(v) ==> ValidVar(r)
    ensures r.name == "PATH" ==> r.value == cfg.binDir + ":" + v.value
    ensures r.name != "PATH" ==> r.value == v.value
  {
    var k := Resolve(v.name, cfg).key;
    Var(k, if k == "PATH" then cfg.binDir + ":" + v.value else v.value)
  }

  /** The state of the scan: the override names seen so far and the variables emitted. */
  datatype Scan = Scan(overrides: set<string>, out: seq<Var>)

  /** Processing of one variable: dropped when its name is an override, emitted otherwise. */
  function Step(st: Scan, v: Var, cfg: Config): (r: Scan)
    ensures v.name in st.overrides ==> r == st
    ensures v.name !in st.overrides ==> r.out == st.out + [Emit(v, cfg)]
    ensures r.overrides == st.overrides +
      (if v.name !in st.overrides && Resolve(v.name, cfg).promoted then {Resolve(v.name, cfg).key} else {})
  {
    if v.name in st.overrides then st
    else
      var res := Resolve(v.name, cfg);
      Scan(if res.promoted then st.overrides + {res.key} else st.overrides,
           st.out + [Emit(v, cfg)])
  }

  /** The scan over `vs` in order, from no overrides and no output. */
  function Process(vs: seq<Var>, cfg: Config): (r: Scan)
    ensures |r.out| <= |vs|
    ensures AllValid(vs) ==> AllValid(r.out)
    decreases |vs|
  {
    if |vs| == 0 then Scan({}, [])
    else
      var n := |vs| - 1;
      Step(Process(vs[..n], cfg), vs[n], cfg)
  }

  /** Whether the variable at index `j` survives: its name is not yet an override. */
  predicate Emits(vs: seq<Var>, j: nat, cfg: Config)
    requires j < |vs|
  {
    vs[j].name !in Process(vs[..j], cfg).overrides
  }

  /** The child's variables when the reordering step returned `sorted`: parse, then scan. */
  function ChildVars(sorted: seq<string>, cfg: Config): (r: seq<Var>)
    requires AllWellFormed(sorted)
    ensures |r| <= |sorted| && AllValid(r)
  {
    Process(ParseAll(sorted), cfg).out
  }

  /** The child's environment when the reordering step returned `sorted`, as `KEY=VALUE` entries. */
  function ChildEnv(sorted: seq<string>, cfg: Config): (r: seq<string>)
    requires AllWellFormed(sorted)
    ensures |r| <= |sorted| && AllWellFormed(r)
  {
    FormatAll(ChildVars(sorted, cfg))
  }

  /** The variables of the environment for a component, with the stable partition as the reordering. */
  function GetEnvVars(environ: seq<string>, component: string, keepEnvPrefix: bool, binDir: string): (r: seq<Var>)
    requires AllWellFormed(environ)
    ensures |r| <= |environ| && AllValid(r)
  {
    var cfg := EnvConfig(component, keepEnvPrefix, binDir);
    var sorted := StablePartition(environ, cfg.prefix);
    WellFormedSameEntries(environ, sorted);
    ChildVars(sorted, cfg)
  }

  /** The environment for a component, as `KEY=VALUE` entries. */
  function GetEnv(environ: seq<string>, component: string, keepEnvPrefix: bool, binDir: string): (r: seq<string>)
    requires AllWellFormed(environ)
    ensures |r| <= |environ| && AllWellFormed(r)
  {
    FormatAll(GetEnvVars(environ, component, keepEnvPrefix, binDir))
  }

  lemma ProcessSnoc(vs: seq<Var>, n: nat, cfg: Config)
    requires n < |vs|
    ensures Process(vs[..n + 1], cfg) == Step(Process(vs[..n], cfg), vs[n], cfg)
  {
    assert vs[..n + 1][..n] == vs[..n];
  }

  lemma FormatSnoc(vs: seq<Var>, v: Var)
    requires AllValid(vs) && ValidVar(v)
    ensures AllValid(vs + [v])
    ensures FormatAll(vs + [v]) == FormatAll(vs) + [Format(v)]
  {
  }

  /** Writing at `i <= idx` leaves the unread part `buf[idx + 1..]` alone. */
  lemma BufferWrite(buf: seq<string>, orig: seq<string>, i: nat, idx: nat, x: string)
    requires i <= idx < |buf| == |orig| && buf[idx..] == orig[idx..]
    ensures buf[i := x][idx + 1..] == orig[idx + 1..]
    ensures buf[idx + 1..] == orig[idx + 1..]
    ensures buf[i := x][..i + 1] == buf[..i] + [x]
  {
    assert buf[idx + 1..] == buf[idx..][1..];
  }

  /** The name rewrite of one entry, written as the switch on the suffix in k0s's `getEnv`. */
  method ResolveKey(k: string, cfg: Config) returns (key: string, shouldOverride: bool)
    ensures Resolution(key, shouldOverride) == Resolve(k, cfg)
  {
    key := k;
    shouldOverride := false;
    if HasPrefix(k, cfg.prefix) {
      var k1 := TrimPrefix(k, cfg.prefix);
      if IsProxyKey(k1) {
        shouldOverride := true;
      } else if !cfg.keepEnvPrefix {
        shouldOverride := true;
      }
      if shouldOverride {
        key := k1;
      }
    }
  }

  /**
   One iteration of the loop of k0s's `getEnv` on the entry `e`: split it, drop it if
   its name is an override, otherwise rewrite its name, record a promotion and
   put the binary directory in front of a `PATH`. It performs one step of the
   scan from any emitted prefix `out`.
   */
  method ScanEntry(e: string, overrides: set<string>, cfg: Config, ghost out: seq<Var>)
    returns (emit: bool, entry: string, overrides1: set<string>)
    requires WellFormed(e)
    ensures emit <==> Key(e) !in overrides
    ensures emit ==> WellFormed(entry) && Parse(entry) == Emit(Parse(e), cfg)
    ensures Step(Scan(overrides, out), Parse(e), cfg) == Scan(overrides1, if emit then out + [Parse(entry)] else out)
  {
    var k := Key(e);
    var v := Value(e);
    overrides1 := overrides;
    entry := e;
    emit := k !in overrides;
    if emit {
      var shouldOverride;
      k, shouldOverride := ResolveKey(k, cfg);
      if shouldOverride {
        overrides1 := overrides + {k};
      }
      entry := Join(k, v);
      if k == "PATH" {
        entry := Join("PATH", cfg.binDir + ":" + v);
      }
    }
  }

  /**
   The scan as k0s's `getEnv` writes it, on the entries themselves: each
   rewritten entry is stored back into the buffer being read, at a write index
   that never passes the read index, and the result is the buffer up to the
   write index.
   */
  method ScanInPlace(sorted: seq<string>, cfg: Config) returns (env: seq<string>)
    requires AllWellFormed(sorted)
    ensures env == ChildEnv(sorted, cfg)
  {
    ghost var vs := ParseAll(sorted);
    ghost var st := Scan({}, []);
    var buf := sorted;
    var overrides: set<string> := {};
    var i := 0;
    for idx := 0 to |sorted|
      invariant i <= idx && |buf| == |sorted|
      invariant buf[idx..] == sorted[idx..]
      invariant st == Process(vs[..idx], cfg)
      invariant st.overrides == overrides && AllValid(st.out)
      invariant buf[..i] == FormatAll(st.out)
    {
      var e := buf[idx];
      assert e == sorted[idx] && vs[idx] == Parse(e);
      ProcessSnoc(vs, idx, cfg);
      var emit, entry;
      emit, entry, overrides := ScanEntry(e, overrides, cfg, st.out);
      if emit {
        FormatSnoc(st.out, Parse(entry));
        BufferWrite(buf, sorted, i, idx, entry);
        buf := buf[i := entry];
        i := i + 1;
      } else {
        BufferWrite(buf, sorted, i, idx, e);
      }
      st := Step(st, vs[idx], cfg);
    }
    assert vs[..|sorted|] == vs;
    env := buf[..i];
  }

  /** The whole builder: reorder, then the in-place scan. */
  method GetEnvInPlace(environ: seq<string>, component: string, keepEnvPrefix: bool, binDir: string)
    returns (env: seq<string>)
    requires AllWellFormed(environ)
    ensures env == GetEnv(environ, component, keepEnvPrefix, binDir)
  {
    var cfg := EnvConfig(component, keepEnvPrefix, binDir);
    var sorted := StablePartition(environ, cfg.prefix);
    WellFormedSameEntries(environ, sorted);
    env := ScanInPlace(sorted, cfg);
  }
}

=== FILE: env_order.dfy ===
/**
 The reordering step of the environment builder: entries that start with the
 component prefix are moved in front of the others.

 k0s's `getEnv` reorders with a general-purpose sort whose "less" relation
 only asks whether its first argument carries the prefix. That relation is
 not a strict weak order, so the sort's contract promises nothing. Go's
 implementations return some `Reordering` (a permutation with the prefixed
 entries first); which one is not specified. The model's builder fixes one
 of them, the stable partition, and the theorems about the child's
 environment are stated for every `Reordering`.
 */
module EnvOrder {
  import opened EnvText

  /** The entries of `s` that start with `prefix`, in their original order. */
  function Prefixed(s: seq<string>, prefix: string): (r: seq<string>)
    ensures |r| <= |s|
    ensures forall i :: 0 <= i < |r| ==> HasPrefix(r[i], prefix)
  {
    if |s| == 0 then []
    else (if HasPrefix(s[0], prefix) then [s[0]] else []) + Prefixed(s[1..], prefix)
  }

  /** The entries of `s` that do not start with `prefix`, in their original order. */
  function Unprefixed(s: seq<string>, prefix: string): (r: seq<string>)
    ensures |r| <= |s|
    ensures forall i :: 0 <= i < |r| ==> !HasPrefix(r[i], prefix)
  {
    if |s| == 0 then []
    else (if HasPrefix(s[0], prefix) then [] else [s[0]]) + Unprefixed(s[1..], prefix)
  }

  /** No entry without the prefix comes before an entry with it. */
  predicate Partitioned(s: seq<string>, prefix: string) {
    forall i, j :: 0 <= i < j < |s| && HasPrefix(s[j], prefix) ==> HasPrefix(s[i], prefix)
  }

  /** `r` is an order the reordering step may return for `s`: a permutation with the prefixed entries first. */
  predicate Reordering(s: seq<string>, r: seq<string>, prefix: string) {
    multiset(r) == multiset(s) && Partitioned(r, prefix)
  }

  /** Putting `s[0]` in front of one of two sequences adds it once to their joint multiset. */
  lemma ConsOne<T>(s: seq<T>, p: seq<T>, u: seq<T>, p1: seq<T>, u1: seq<T>)
    requires |s| > 0 && multiset(p) + multiset(u) == multiset(s[1..])
    requires (p1 == [s[0]] + p && u1 == u) || (p1 == p && u1 == [s[0]] + u)
    ensures multiset(p1) + multiset(u1) == multiset(s)
  {
    assert s == [s[0]] + s[1..];
  }

  lemma FilterHead(s: seq<string>, prefix: string)
    requires |s| > 0
    ensures (Prefixed(s, prefix) == [s[0]] + Prefixed(s[1..], prefix) && Unprefixed(s, prefix) == Unprefixed(s[1..], prefix))
         || (Prefixed(s, prefix) == Prefixed(s[1..], prefix) && Unprefixed(s, prefix) == [s[0]] + Unprefixed(s[1..], prefix))
  {
  }

  lemma {:induction false} FilterMultiset(s: seq<string>, prefix: string)
    ensures multiset(Prefixed(s, prefix)) + multiset(Unprefixed(s, prefix)) == multiset(s)
  {
    if |s| > 0 {
      var t := s[1..];
      FilterMultiset(t, prefix);
      FilterHead(s, prefix);
      ConsOne(s, Prefixed(t, prefix), Unprefixed(t, prefix), Prefixed(s, prefix), Unprefixed(s, prefix));
    }
  }

  lemma GroupsPartitioned(p: seq<string>, u: seq<string>, prefix: string)
    requires forall i :: 0 <= i < |p| ==> HasPrefix(p[i], prefix)
    requires forall i :: 0 <= i < |u| ==> !HasPrefix(u[i], prefix)
    ensures Partitioned(p + u, prefix)
  {
    assert forall k :: |p| <= k < |p + u| ==> (p + u)[k] == u[k - |p|];
  }

  /**
   Prefixed entries first, each group in input order. The result is a
   permutation of the input in which no unprefixed entry precedes a prefixed
   one.
   */
  function StablePartition(s: seq<string>, prefix: string): (r: seq<string>)
    ensures multiset(r) == multiset(s)
    ensures Partitioned(r, prefix)
  {
    var p := Prefixed(s, prefix);
    var u := Unprefixed(s, prefix);
    FilterMultiset(s, prefix);
    GroupsPartitioned(p, u, prefix);
    p + u
  }
}

=== FILE: env_properties.dfy ===
/**
 Properties of the environment a supervised child receives, stated on single
 inherited entries, for every order `p` the reordering step may return
 (`SortOutcome`). The builder `GetEnv` is the case where `p` is the stable
 partition.

 Most of them hold for every environment whose entries all carry a `=` and
 in which no prefixed name carries the prefix twice (`Admissible`, see
 `EnvSpec.NoDoublePrefix`); `UnprefixedPassesThrough` and
 `PathAlwaysPrepended` need only the `=`.
 */
module EnvProperties {
  import opened EnvText
  import opened EnvOrder
  import opened EnvBuilder
  import opened EnvSpec

  /** The inputs the properties below are stated for. */
  predicate Admissible(environ: seq<string>, component: string) {
    && AllWellFormed(environ)
    && NoDoublePrefix(ParseAll(environ), ComponentPrefix(component))
  }

  /**
   `p` is an order the reordering step may return for `environ`. Its entries
   carry a `=` because those of `environ` do; that is spelled out so that
   the scan of `p` is defined.
   */
  predicate SortOutcome(environ: seq<string>, p: seq<string>, component: string) {
    AllWellFormed(p) && Reordering(environ, p, ComponentPrefix(component))
  }

  /** The name an entry's prefixed name is promoted to: the name without the prefix. */
  function Suffix(e: string, component: string): string
    requires WellFormed(e) && HasPrefix(Key(e), ComponentPrefix(component))
  {
    Key(e)[|ComponentPrefix(component)|..]
  }

  /** A variable is emitted as an entry exactly when it is among the builder's variables. */
  lemma FormatMembers(vs: seq<Var>, x: Var)
    requires AllValid(vs) && ValidVar(x)
    ensures Format(x) in FormatAll(vs) <==> x in vs
  {
    if Format(x) in FormatAll(vs) {
      var i :| 0 <= i < |vs| && FormatAll(vs)[i] == Format(x);
      assert Parse(Format(vs[i])) == vs[i];
    }
    if x in vs {
      var i :| 0 <= i < |vs| && vs[i] == x;
      assert FormatAll(vs)[i] == Format(x);
    }
  }

  /** The inherited entry `e`, as one of the variables the scan reads. */
  lemma ParsedEntry(environ: seq<string>, e: string)
    requires AllWellFormed(environ) && e in environ
    ensures WellFormed(e) && Parse(e) in ParseAll(environ)
  {
    ParseAllMembers(environ);
  }

  /** Emitting the variable of `e` puts `w` in the output, through the reference definition. */
  lemma EmittedFrom(environ: seq<string>, p: seq<string>, component: string, keepEnvPrefix: bool, binDir: string,
                    e: string, w: Var)
    requires Admissible(environ, component) && SortOutcome(environ, p, component) && e in environ
    requires var cfg := EnvConfig(component, keepEnvPrefix, binDir);
      WellFormed(e) && w in Contribution(Parse(e), PromotedKeys(ParseAll(environ), cfg), cfg)
    ensures w in ChildVars(p, EnvConfig(component, keepEnvPrefix, binDir))
  {
    ParsedEntry(environ, e);
    ChildMembers(environ, p, EnvConfig(component, keepEnvPrefix, binDir), w);
  }

  /**
   An inherited entry whose own name no variable is promoted to is never
   skipped: its emitted form reaches the child, for every environment and
   every order the sort may return.
   */
  lemma UnpromotedReachesChild(environ: seq<string>, p: seq<string>, component: string, keepEnvPrefix: bool,
                               binDir: string, e: string)
    requires AllWellFormed(environ) && SortOutcome(environ, p, component) && e in environ && WellFormed(e)
    requires Key(e) !in PromotedKeys(ParseAll(environ), EnvConfig(component, keepEnvPrefix, binDir))
    ensures var cfg := EnvConfig(component, keepEnvPrefix, binDir);
      Emit(Parse(e), cfg) in ChildVars(p, cfg)
  {
    var cfg := EnvConfig(component, keepEnvPrefix, binDir);
    var vs := ParseAll(p);
    SameVars(environ, p, cfg);
    ParsedEntry(environ, e);
    assert Parse(e) in multiset(vs);
    var j :| 0 <= j < |vs| && vs[j] == Parse(e);
    UnpromotedEmits(vs, j, cfg);
    EmitOriginsExact(vs, cfg, j);
    var idx := EmitOrigins(vs, cfg);
    var k :| 0 <= k < |idx| && idx[k] == j;
    assert ChildVars(p, cfg)[k] == Emit(Parse(e), cfg);
  }

  /** No proxy name is another proxy name with something put in front. */
  lemma ProxyNotProperSuffix(p: string, s: string)
    requires |p| >= 1 && IsProxyKey(s)
    ensures !IsProxyKey(p + s)
  {
    assert (p + s)[|p|..] == s;
  }

  /** With prefixes kept, only proxy names are promoted, and a prefixed proxy name is none of them. */
  lemma KeptProxyNotOverridden(environ: seq<string>, component: string, binDir: string, e: string)
    requires AllWellFormed(environ) && WellFormed(e) && HasPrefix(Key(e), ComponentPrefix(component))
    requires IsProxyKey(Suffix(e, component))
    ensures Key(e) !in PromotedKeys(ParseAll(environ), EnvConfig(component, true, binDir))
  {
    var prefix := ComponentPrefix(component);
    assert Key(e) == prefix + Suffix(e, component);
    ProxyNotProperSuffix(prefix, Suffix(e, component));
  }

  /**
   A prefixed proxy variable (`ETCD_HTTP_PROXY` for `etcd`) is always
   promoted: the child sees it under the bare proxy name with the same value,
   whatever `keepEnvPrefix` says. With prefixes kept this holds for every
   environment; without, doubly-prefixed names are excluded.
   */
  lemma ProxyAlwaysPromoted(environ: seq<string>, p: seq<string>, component: string, keepEnvPrefix: bool, binDir: string,
                            e: string)
    requires AllWellFormed(environ) && SortOutcome(environ, p, component) && e in environ
    requires keepEnvPrefix || NoDoublePrefix(ParseAll(environ), ComponentPrefix(component))
    requires WellFormed(e) && HasPrefix(Key(e), ComponentPrefix(component))
    requires IsProxyKey(Suffix(e, component))
    ensures Join(Suffix(e, component), Value(e)) in ChildEnv(p, EnvConfig(component, keepEnvPrefix, binDir))
  {
    var w := Var(Suffix(e, component), Value(e));
    ParsedEntry(environ, e);
    if keepEnvPrefix {
      KeptProxyNotOverridden(environ, component, binDir, e);
      UnpromotedReachesChild(environ, p, component, true, binDir, e);
      assert Emit(Parse(e), EnvConfig(component, true, binDir)) == w;
    } else {
      EmittedFrom(environ, p, component, false, binDir, e, w);
    }
    FormatMembers(ChildVars(p, EnvConfig(component, keepEnvPrefix, binDir)), w);
  }

  /**
   When prefixes are not kept, every prefixed variable is promoted: the child
   sees it under the name without the prefix (a promoted `PATH` with the
   binary directory in front).
   */
  lemma StrippedWhenNotKept(environ: seq<string>, p: seq<string>, component: string, binDir: string, e: string)
    requires Admissible(environ, component) && SortOutcome(environ, p, component) && e in environ
    requires WellFormed(e) && HasPrefix(Key(e), ComponentPrefix(component))
    ensures var k := Suffix(e, component);
      Join(k, if k == "PATH" then binDir + ":" + Value(e) else Value(e)) in ChildEnv(p, EnvConfig(component, false, binDir))
  {
    var k := Suffix(e, component);
    var w := Var(k, if k == "PATH" then binDir + ":" + Value(e) else Value(e));
    ParsedEntry(environ, e);
    EmittedFrom(environ, p, component, false, binDir, e, w);
    FormatMembers(ChildVars(p, EnvConfig(component, false, binDir)), w);
  }

  /**
   A promoted prefixed variable (a proxy variable, or any prefixed variable
   when prefixes are not kept) makes its name without the prefix an
   override: whatever the child sees under that name comes from a promoted
   prefixed variable, so the unprefixed variable of that name is dropped.
   */
  lemma PromotedNameIsOverride(environ: seq<string>, p: seq<string>, component: string, keepEnvPrefix: bool,
                               binDir: string, e: string)
    requires Admissible(environ, component) && SortOutcome(environ, p, component) && e in environ
    requires WellFormed(e) && HasPrefix(Key(e), ComponentPrefix(component))
    requires IsProxyKey(Suffix(e, component)) || !keepEnvPrefix
    ensures var cfg := EnvConfig(component, keepEnvPrefix, binDir);
      forall w :: w in ChildVars(p, cfg) && w.name == Suffix(e, component) ==>
        exists v :: v in ParseAll(environ) && HasPrefix(v.name, cfg.prefix) && Resolve(v.name, cfg).promoted
          && w == Emit(v, cfg)
  {
    var cfg := EnvConfig(component, keepEnvPrefix, binDir);
    ParsedEntry(environ, e);
    assert Suffix(e, component) in PromotedKeys(ParseAll(environ), cfg);
    forall w | w in ChildVars(p, cfg) && w.name == Suffix(e, component)
      ensures exists v ::
                v in ParseAll(environ) && HasPrefix(v.name, cfg.prefix) && Resolve(v.name, cfg).promoted
                && w == Emit(v, cfg)
    {
      OverrideWins(environ, p, component, keepEnvPrefix, binDir, w);
    }
  }

  /** A name that carries a component prefix is never `PATH`: the prefix ends in `_`. */
  lemma PrefixedNameIsNotPath(k: string, component: string)
    requires HasPrefix(k, ComponentPrefix(component))
    ensures k != "PATH"
  {
  }

  /**
   When prefixes are kept, a prefixed variable that is not a proxy variable
   reaches the child unchanged, under its prefixed name.
   */
  lemma KeptUnderPrefixedName(environ: seq<string>, p: seq<string>, component: string, binDir: string, e: string)
    requires Admissible(environ, component) && SortOutcome(environ, p, component) && e in environ
    requires WellFormed(e) && HasPrefix(Key(e), ComponentPrefix(component))
    requires !IsProxyKey(Suffix(e, component))
    ensures e in ChildEnv(p, EnvConfig(component, true, binDir))
  {
    ParsedEntry(environ, e);
    PrefixedNameIsNotPath(Key(e), component);
    EmittedFrom(environ, p, component, true, binDir, e, Var(Key(e), Value(e)));
    FormatMembers(ChildVars(p, EnvConfig(component, true, binDir)), Var(Key(e), Value(e)));
  }

  /**
   An unprefixed variable that no prefixed variable overrides reaches the
   child: unchanged as an entry (its value keeps any further `=`), except
   that `PATH` gets the binary directory in front. The scan records only
   promoted names as overrides, so this holds for every environment.
   */
  lemma UnprefixedPassesThrough(environ: seq<string>, p: seq<string>, component: string, keepEnvPrefix: bool,
                                binDir: string, e: string)
    requires AllWellFormed(environ) && SortOutcome(environ, p, component) && e in environ
    requires WellFormed(e) && !HasPrefix(Key(e), ComponentPrefix(component))
    requires Key(e) !in PromotedKeys(ParseAll(environ), EnvConfig(component, keepEnvPrefix, binDir))
    ensures Key(e) != "PATH" ==> e in ChildEnv(p, EnvConfig(component, keepEnvPrefix, binDir))
    ensures Key(e) == "PATH" ==>
      Join("PATH", binDir + ":" + Value(e)) in ChildEnv(p, EnvConfig(component, keepEnvPrefix, binDir))
  {
    var cfg := EnvConfig(component, keepEnvPrefix, binDir);
    UnpromotedReachesChild(environ, p, component, keepEnvPrefix, binDir, e);
    var w := Var(Key(e), if Key(e) == "PATH" then binDir + ":" + Value(e) else Value(e));
    assert Emit(Parse(e), cfg) == w;
    FormatMembers(ChildVars(p, cfg), w);
  }

  /**
   A promoted name wins: every variable the child sees under a promoted name
   comes from a prefixed variable promoted to it, so an unprefixed variable
   of that name is dropped.
   */
  lemma OverrideWins(environ: seq<string>, p: seq<string>, component: string, keepEnvPrefix: bool, binDir: string,
                     w: Var)
    requires Admissible(environ, component) && SortOutcome(environ, p, component)
    requires w in ChildVars(p, EnvConfig(component, keepEnvPrefix, binDir))
    requires w.name in PromotedKeys(ParseAll(environ), EnvConfig(component, keepEnvPrefix, binDir))
    ensures var cfg := EnvConfig(component, keepEnvPrefix, binDir);
      exists v :: v in ParseAll(environ) && HasPrefix(v.name, cfg.prefix) && Resolve(v.name, cfg).promoted
        && w == Emit(v, cfg)
  {
    var cfg := EnvConfig(component, keepEnvPrefix, binDir);
    var o := PromotedKeys(ParseAll(environ), cfg);
    ChildMembers(environ, p, cfg, w);
    var v :| v in ParseAll(environ) && w in Contribution(v, o, cfg);
    assert w == Emit(v, cfg);
  }

  /**
   Every `PATH` the child sees is the value of an inherited variable that
   ends up named `PATH`, with the binary directory and `:` in front. This
   holds for every environment.
   */
  lemma PathAlwaysPrepended(environ: seq<string>, p: seq<string>, component: string, keepEnvPrefix: bool, binDir: string,
                            w: Var)
    requires AllWellFormed(environ) && SortOutcome(environ, p, component)
    requires w in ChildVars(p, EnvConfig(component, keepEnvPrefix, binDir)) && w.name == "PATH"
    ensures var cfg := EnvConfig(component, keepEnvPrefix, binDir);
      exists v :: v in ParseAll(environ) && Resolve(v.name, cfg).key == "PATH" && w.value == binDir + ":" + v.value
  {
    var cfg := EnvConfig(component, keepEnvPrefix, binDir);
    var vs := ParseAll(p);
    SameVars(environ, p, cfg);
    var idx := EmitOrigins(vs, cfg);
    var k :| 0 <= k < |idx| && ChildVars(p, cfg)[k] == w;
    var v := vs[idx[k]];
    assert v in multiset(ParseAll(environ));
    assert w == Emit(v, cfg);
  }

  /** A scan of two variables is two steps from the empty state. */
  lemma ProcessPair(x: Var, y: Var, cfg: Config)
    ensures Process([x, y], cfg) == Step(Step(Scan({}, []), x, cfg), y, cfg)
  {
    var s := [x, y];
    ProcessSnoc(s, 0, cfg);
    ProcessSnoc(s, 1, cfg);
    assert s[..2] == s && s[..0] == [];
  }

  /** With prefixes not kept, `p + rest` carries the prefix `p` and is promoted to `rest`. */
  lemma PromotesTo(rest: string, cfg: Config)
    requires !cfg.keepEnvPrefix
    ensures HasPrefix(cfg.prefix + rest, cfg.prefix)
    ensures Resolve(cfg.prefix + rest, cfg) == Resolution(rest, true)
  {
    var p := cfg.prefix;
    assert (p + rest)[..|p|] == p;
    assert (p + rest)[|p|..] == rest;
  }

  /** Scanned first, the doubly-prefixed variable is promoted onto the other's name and shadows it. */
  lemma DoublePrefixFirst(cfg: Config, n: string, v1: string, v2: string)
    requires !cfg.keepEnvPrefix
    ensures var a, b := Var(cfg.prefix + (cfg.prefix + n), v1), Var(cfg.prefix + n, v2);
      Process([a, b], cfg).out == [Emit(a, cfg)] && Emit(a, cfg).name == cfg.prefix + n
  {
    var a, b := Var(cfg.prefix + (cfg.prefix + n), v1), Var(cfg.prefix + n, v2);
    PromotesTo(cfg.prefix + n, cfg);
    ProcessPair(a, b, cfg);
  }

  /** Scanned second, the doubly-prefixed variable survives next to the other. */
  lemma DoublePrefixSecond(cfg: Config, n: string, v1: string, v2: string)
    requires !cfg.keepEnvPrefix && |cfg.prefix| > 0
    ensures var a, b := Var(cfg.prefix + (cfg.prefix + n), v1), Var(cfg.prefix + n, v2);
      Process([b, a], cfg).out == [Emit(b, cfg), Emit(a, cfg)] && Emit(b, cfg).name == n
  {
    var a, b := Var(cfg.prefix + (cfg.prefix + n), v1), Var(cfg.prefix + n, v2);
    PromotesTo(cfg.prefix + n, cfg);
    PromotesTo(n, cfg);
    ProcessPair(b, a, cfg);
    assert |a.name| > |n|;
  }

  /**
   Why `NoDoublePrefix` is needed: for any component, with prefixes not kept,
   `PREFIX_PREFIX_n` and `PREFIX_n` both belong to the prefixed group, and the
   two orders the reordering step may leave them in give different
   environments. Scanned first, `PREFIX_PREFIX_n` is promoted to `PREFIX_n`
   and shadows the real one; scanned second, both survive.
   */
  lemma DoublePrefixOrderMatters(component: string, binDir: string, n: string, v1: string, v2: string)
    ensures var cfg := EnvConfig(component, false, binDir);
      var p := cfg.prefix;
      var a, b := Var(p + (p + n), v1), Var(p + n, v2);
      && NamePartitioned([a, b], p) && NamePartitioned([b, a], p)
      && Process([a, b], cfg).out == [Emit(a, cfg)]
      && Process([b, a], cfg).out == [Emit(b, cfg), Emit(a, cfg)]
      && Emit(a, cfg).name == p + n && Emit(b, cfg).name == n
  {
    var cfg := EnvConfig(component, false, binDir);
    PromotesTo(cfg.prefix + n, cfg);
    PromotesTo(n, cfg);
    DoublePrefixFirst(cfg, n, v1, v2);
    DoublePrefixSecond(cfg, n, v1, v2);
  }
}

=== FILE: env_spec.dfy ===
/**
 What the environment builder computes, stated without the scan's state.

 `Expected` is a reference definition: each variable on its own contributes
 its emitted form, except an unprefixed variable whose name some prefixed
 variable was promoted to, which contributes nothing. The main theorem says
 that the scan agrees with it on every order that puts the prefixed
 variables first, when no prefixed name carries the prefix twice. The remaining lemmas turn that into statements about the
 child's variables for every order the reordering step may return.
 */
module EnvSpec {
  import opened EnvText
  import opened EnvOrder
  import opened EnvBuilder

  /** No variable whose name carries the prefix comes after one whose name does not. */
  predicate NamePartitioned(vs: seq<Var>, prefix: string) {
    forall i, j :: 0 <= i < j < |vs| && HasPrefix(vs[j].name, prefix) ==> HasPrefix(vs[i].name, prefix)
  }

  /**
   No prefixed name carries the prefix a second time. A name like
   `ETCD_ETCD_X` is promoted to `ETCD_X`, which then shadows a real `ETCD_X`
   or not depending on the order inside the prefixed group.
   */
  predicate NoDoublePrefix(vs: seq<Var>, prefix: string) {
    forall v :: v in vs && HasPrefix(v.name, prefix) ==> !HasPrefix(v.name[|prefix|..], prefix)
  }

  /** The names that prefixed variables of `vs` are promoted to. */
  function PromotedKeys(vs: seq<Var>, cfg: Config): set<string> {
    set v | v in vs && Resolve(v.name, cfg).promoted :: Resolve(v.name, cfg).key
  }

  /** The output one variable stands for, given the promoted names `o` of the whole input. */
  function Contribution(v: Var, o: set<string>, cfg: Config): (r: seq<Var>)
    ensures |r| <= 1
  {
    if !HasPrefix(v.name, cfg.prefix) && v.name in o then [] else [Emit(v, cfg)]
  }

  /** The concatenation of the sequences of `ss`, in order. */
  function Flatten<T>(ss: seq<seq<T>>): seq<T>
    decreases |ss|
  {
    if |ss| == 0 then []
    else
      var n := |ss| - 1;
      Flatten(ss[..n]) + ss[n]
  }

  /** The contribution of each variable of `vs`, position by position. */
  function Contributions(vs: seq<Var>, o: set<string>, cfg: Config): seq<seq<Var>> {
    seq(|vs|, i requires 0 <= i < |vs| => Contribution(vs[i], o, cfg))
  }

  /** The contributions of all variables of `vs`, in order. */
  function Expected(vs: seq<Var>, o: set<string>, cfg: Config): seq<Var> {
    Flatten(Contributions(vs, o, cfg))
  }

  // ---------------------------------------------------------------------
  // Entries and variables

  /** Testing the whole entry or only its name for the prefix agrees, unless the prefix holds a `=`. */
  lemma EntryPrefixIsNamePrefix(e: string, prefix: string)
    requires WellFormed(e) && '=' !in prefix
    ensures HasPrefix(e, prefix) <==> HasPrefix(Key(e), prefix)
  {
    var k := Key(e);
    if HasPrefix(k, prefix) {
      assert e[..|prefix|] == k[..|prefix|];
    }
    if HasPrefix(e, prefix) {
      assert k[..|prefix|] == e[..|prefix|];
    }
  }

  /** Parsing keeps the entries: each variable of the parse is the parse of an entry, and back. */
  lemma ParseAllMembers(env: seq<string>)
    requires AllWellFormed(env)
    ensures forall e :: e in env ==> WellFormed(e) && Parse(e) in ParseAll(env)
    ensures forall v :: v in ParseAll(env) ==> exists e :: e in env && WellFormed(e) && v == Parse(e)
  {
    var vs := ParseAll(env);
    forall e | e in env
      ensures WellFormed(e) && Parse(e) in vs
    {
      var i :| 0 <= i < |env| && env[i] == e;
      assert vs[i] == Parse(e);
    }
    forall v | v in vs
      ensures exists e :: e in env && WellFormed(e) && v == Parse(e)
    {
      var i :| 0 <= i < |vs| && vs[i] == v;
      assert env[i] in env;
    }
  }

  /** Taking one occurrence of `x` out of two equal multisets leaves equal multisets. */
  lemma RemoveOne<T>(a: seq<T>, b1: seq<T>, b2: seq<T>, x: T)
    requires multiset(a + [x]) == multiset(b1 + [x] + b2)
    ensures multiset(a) == multiset(b1 + b2)
  {
    calc {
      multiset(a);
      multiset(a + [x]) - multiset{x};
      multiset(b1 + [x] + b2) - multiset{x};
      multiset(b1) + multiset(b2);
    }
  }

  lemma ParseAllConcat(a: seq<string>, b: seq<string>)
    requires AllWellFormed(a) && AllWellFormed(b)
    ensures AllWellFormed(a + b)
    ensures ParseAll(a + b) == ParseAll(a) + ParseAll(b)
  {
  }

  /** A reordering of the entries parses to the same reordering of the variables. */
  lemma {:induction false} ParseAllPermutation(a: seq<string>, b: seq<string>)
    requires AllWellFormed(a) && multiset(a) == multiset(b)
    ensures AllWellFormed(b)
    ensures multiset(ParseAll(a)) == multiset(ParseAll(b))
    decreases |a|
  {
    WellFormedSameEntries(a, b);
    if |a| > 0 {
      var n := |a| - 1;
      var x := a[n];
      assert a == a[..n] + [x];
      assert x in multiset(b);
      var k :| 0 <= k < |b| && b[k] == x;
      var b1, b2 := b[..k], b[k + 1..];
      assert b == b1 + [x] + b2;
      RemoveOne(a[..n], b1, b2, x);
      WellFormedSameEntries(a, a[..n]);
      WellFormedSameEntries(b, b1);
      WellFormedSameEntries(b, b2);
      WellFormedSameEntries(a, [x]);
      ParseAllPermutation(a[..n], b1 + b2);
      ParseAllConcat(a[..n], [x]);
      ParseAllConcat(b1, [x]);
      ParseAllConcat(b1 + [x], b2);
      ParseAllConcat(b1, b2);
    }
  }

  /** A name holds no `=`, so a prefix with a `=` is carried by no name. */
  lemma NoNameCarriesEquals(k: string, prefix: string)
    requires '=' !in k && '=' in prefix
    ensures !HasPrefix(k, prefix)
  {
  }

  /**
   A prefixed-first order of the entries parses to a prefixed-first order of
   the names. With a `=` in the prefix no name carries it, and the order of
   the names is trivially prefixed-first.
   */
  lemma PartitionedByName(env: seq<string>, prefix: string)
    requires AllWellFormed(env) && Partitioned(env, prefix)
    ensures NamePartitioned(ParseAll(env), prefix)
  {
    if '=' in prefix {
      forall i | 0 <= i < |env|
        ensures !HasPrefix(ParseAll(env)[i].name, prefix)
      {
        NoNameCarriesEquals(ParseAll(env)[i].name, prefix);
      }
    } else {
      forall i | 0 <= i < |env|
        ensures HasPrefix(env[i], prefix) <==> HasPrefix(ParseAll(env)[i].name, prefix)
      {
        EntryPrefixIsNamePrefix(env[i], prefix);
      }
    }
  }

  // ---------------------------------------------------------------------
  // The scan in any order

  lemma OverridesStep(vs: seq<Var>, n: nat, cfg: Config)
    requires n < |vs|
    ensures Process(vs[..n], cfg).overrides <= Process(vs[..n + 1], cfg).overrides
  {
    ProcessSnoc(vs, n, cfg);
  }

  /** The override set only grows as the scan proceeds. */
  lemma {:induction false} OverridesGrow(vs: seq<Var>, i: nat, j: nat, cfg: Config)
    requires i <= j <= |vs|
    ensures Process(vs[..i], cfg).overrides <= Process(vs[..j], cfg).overrides
    decreases j - i
  {
    if i < j {
      OverridesGrow(vs, i + 1, j, cfg);
      OverridesStep(vs, i, cfg);
    }
  }

  /** The scan records only promoted names as overrides. */
  lemma {:induction false} OverridesArePromoted(vs: seq<Var>, cfg: Config)
    ensures Process(vs, cfg).overrides <= PromotedKeys(vs, cfg)
    decreases |vs|
  {
    if |vs| > 0 {
      var n := |vs| - 1;
      OverridesArePromoted(vs[..n], cfg);
      PromotedKeysSnoc(vs[..n], vs[n], cfg);
      assert vs[..n] + [vs[n]] == vs;
    }
  }

  /** A variable whose name no variable of the input is promoted to is emitted, wherever it stands. */
  lemma UnpromotedEmits(vs: seq<Var>, j: nat, cfg: Config)
    requires j < |vs| && vs[j].name !in PromotedKeys(vs, cfg)
    ensures Emits(vs, j, cfg)
  {
    OverridesArePromoted(vs[..j], cfg);
    assert forall v :: v in vs[..j] ==> v in vs;
  }

  /**
   Once an emitted variable is promoted to name `K`, every later variable
   named `K` is dropped, in whatever order the variables are scanned.
   */
  lemma PromotionSuppressesLater(vs: seq<Var>, i: nat, j: nat, cfg: Config)
    requires i < j < |vs|
    requires Emits(vs, i, cfg) && Resolve(vs[i].name, cfg).promoted
    requires vs[j].name == Resolve(vs[i].name, cfg).key
    ensures !Emits(vs, j, cfg)
  {
    ProcessSnoc(vs, i, cfg);
    OverridesGrow(vs, i + 1, j, cfg);
  }

  /** Whether a variable is emitted depends only on the variables before it. */
  lemma EmitsPrefix(vs: seq<Var>, n: nat, j: nat, cfg: Config)
    requires j < n <= |vs|
    ensures Emits(vs[..n], j, cfg) <==> Emits(vs, j, cfg)
  {
    assert vs[..n][..j] == vs[..j];
  }

  /** The last step of a scan appends the emitted form of the last variable exactly when it is emitted. */
  lemma ProcessLast(vs: seq<Var>, cfg: Config)
    requires |vs| > 0
    ensures var n := |vs| - 1;
      Process(vs, cfg).out == Process(vs[..n], cfg).out + (if Emits(vs, n, cfg) then [Emit(vs[n], cfg)] else [])
  {
  }

  /** Extending an index map by the last source position when `b` holds, and leaving it alone otherwise. */
  lemma OriginsSnoc<T>(src: seq<T>, pout: seq<T>, prev: seq<nat>, b: bool, out: seq<T>, idx: seq<nat>)
    requires |src| > 0 && |prev| == |pout|
    requires forall k :: 0 <= k < |prev| ==> prev[k] < |src| - 1 && pout[k] == src[prev[k]]
    requires forall k, l :: 0 <= k < l < |prev| ==> prev[k] < prev[l]
    requires out == pout + (if b then [src[|src| - 1]] else [])
    requires idx == prev + (if b then [|src| - 1] else [])
    ensures |idx| == |out|
    ensures forall k :: 0 <= k < |idx| ==> idx[k] < |src| && out[k] == src[idx[k]]
    ensures forall k, l :: 0 <= k < l < |idx| ==> idx[k] < idx[l]
  {
  }

  /** The emitted form of every variable of `vs`, position by position. */
  function EmitEach(vs: seq<Var>, cfg: Config): seq<Var> {
    seq(|vs|, i requires 0 <= i < |vs| => Emit(vs[i], cfg))
  }

  /**
   Where the scan's output comes from: `out[k]` is the emitted form of the
   variable at position `idx[k]` of the input. The positions strictly
   increase, so each input variable yields at most one output variable and
   the output keeps the input order.
   */
  function EmitOrigins(vs: seq<Var>, cfg: Config): (idx: seq<nat>)
    ensures |idx| == |Process(vs, cfg).out|
    ensures forall k :: 0 <= k < |idx| ==> idx[k] < |vs| && Process(vs, cfg).out[k] == Emit(vs[idx[k]], cfg)
    ensures forall k, l :: 0 <= k < l < |idx| ==> idx[k] < idx[l]
    decreases |vs|
  {
    if |vs| == 0 then []
    else
      var n := |vs| - 1;
      var prev := EmitOrigins(vs[..n], cfg);
      var idx := if Emits(vs, n, cfg) then prev + [n] else prev;
      var src := EmitEach(vs, cfg);
      ProcessLast(vs, cfg);
      assert forall k :: 0 <= k < |prev| ==> vs[..n][prev[k]] == vs[prev[k]];
      OriginsSnoc(src, Process(vs[..n], cfg).out, prev, Emits(vs, n, cfg), Process(vs, cfg).out, idx);
      idx
  }

  /** A position is listed by `EmitOrigins` exactly when the variable there is emitted. */
  lemma {:induction false} EmitOriginsExact(vs: seq<Var>, cfg: Config, j: nat)
    requires j < |vs|
    ensures j in EmitOrigins(vs, cfg) <==> Emits(vs, j, cfg)
    decreases |vs|
  {
    var n := |vs| - 1;
    var prev := EmitOrigins(vs[..n], cfg);
    assert EmitOrigins(vs, cfg) == if Emits(vs, n, cfg) then prev + [n] else prev;
    if j < n {
      EmitsPrefix(vs, n, j, cfg);
      EmitOriginsExact(vs[..n], cfg, j);
      assert j in prev + [n] <==> j in prev;
    }
  }

  // ---------------------------------------------------------------------
  // The reference definition

  lemma {:induction false} FlattenConcat<T>(a: seq<seq<T>>, b: seq<seq<T>>)
    ensures Flatten(a + b) == Flatten(a) + Flatten(b)
    decreases |b|
  {
    if |b| == 0 {
      assert a + b == a;
    } else {
      var n := |b| - 1;
      var ab := a + b;
      assert ab[..|ab| - 1] == a + b[..n] && ab[|ab| - 1] == b[n];
      FlattenConcat(a, b[..n]);
    }
  }

  /** An element of the flattening is an element of one of the sequences flattened. */
  lemma {:induction false} FlattenMembers<T>(ss: seq<seq<T>>, x: T)
    ensures x in Flatten(ss) <==> exists i :: 0 <= i < |ss| && x in ss[i]
    decreases |ss|
  {
    if |ss| > 0 {
      var n := |ss| - 1;
      FlattenMembers(ss[..n], x);
      assert forall i :: 0 <= i < n ==> ss[..n][i] == ss[i];
    }
  }

  lemma ContributionsConcat(a: seq<Var>, b: seq<Var>, o: set<string>, cfg: Config)
    ensures Contributions(a + b, o, cfg) == Contributions(a, o, cfg) + Contributions(b, o, cfg)
  {
  }

  lemma ExpectedConcat(a: seq<Var>, b: seq<Var>, o: set<string>, cfg: Config)
    ensures Expected(a + b, o, cfg) == Expected(a, o, cfg) + Expected(b, o, cfg)
  {
    ContributionsConcat(a, b, o, cfg);
    FlattenConcat(Contributions(a, o, cfg), Contributions(b, o, cfg));
  }

  /** Appending a variable appends its contribution. */
  lemma ExpectedSnoc(q: seq<Var>, x: Var, o: set<string>, cfg: Config)
    ensures Expected(q + [x], o, cfg) == Expected(q, o, cfg) + Contribution(x, o, cfg)
  {
    ExpectedConcat(q, [x], o, cfg);
    var c := Contributions([x], o, cfg);
    assert c == [Contribution(x, o, cfg)] && c[..0] == [];
    assert Flatten(c) == Flatten(c[..0]) + c[0];
  }

  /** An output of `Expected` is the contribution of some variable of the input. */
  lemma ExpectedMembers(vs: seq<Var>, o: set<string>, cfg: Config, x: Var)
    ensures x in Expected(vs, o, cfg) <==> exists v :: v in vs && x in Contribution(v, o, cfg)
  {
    var cs := Contributions(vs, o, cfg);
    FlattenMembers(cs, x);
    if x in Expected(vs, o, cfg) {
      var i :| 0 <= i < |cs| && x in cs[i];
      assert vs[i] in vs && x in Contribution(vs[i], o, cfg);
    }
    if exists v :: v in vs && x in Contribution(v, o, cfg) {
      var v :| v in vs && x in Contribution(v, o, cfg);
      var i :| 0 <= i < |vs| && vs[i] == v;
      assert x in cs[i];
    }
  }

  /** `Expected` depends on its input only as a multiset, up to the order of its output. */
  lemma {:induction false} ExpectedPermutation(a: seq<Var>, b: seq<Var>, o: set<string>, cfg: Config)
    requires multiset(a) == multiset(b)
    ensures multiset(Expected(a, o, cfg)) == multiset(Expected(b, o, cfg))
    decreases |a|
  {
    if |a| > 0 {
      var n := |a| - 1;
      var x := a[n];
      assert a == a[..n] + [x];
      assert x in multiset(b);
      var k :| 0 <= k < |b| && b[k] == x;
      var b1, b2 := b[..k], b[k + 1..];
      assert b == b1 + [x] + b2;
      RemoveOne(a[..n], b1, b2, x);
      ExpectedPermutation(a[..n], b1 + b2, o, cfg);
      ExpectedSnoc(a[..n], x, o, cfg);
      ExpectedConcat(b1, b2, o, cfg);
      ExpectedSnoc(b1, x, o, cfg);
      ExpectedConcat(b1 + [x], b2, o, cfg);
    }
  }

  // ---------------------------------------------------------------------
  // The scan agrees with the reference on prefixed-first orders

  lemma PromotedKeysSnoc(q: seq<Var>, x: Var, cfg: Config)
    ensures PromotedKeys(q + [x], cfg) ==
      PromotedKeys(q, cfg) + (if Resolve(x.name, cfg).promoted then {Resolve(x.name, cfg).key} else {})
  {
    assert forall v :: v in q + [x] <==> v in q || v == x;
  }

  /** Under `NoDoublePrefix`, a promoted name never carries the prefix itself. */
  lemma PromotedKeysUnprefixed(vs: seq<Var>, cfg: Config, k: string)
    requires NoDoublePrefix(vs, cfg.prefix) && k in PromotedKeys(vs, cfg)
    ensures !HasPrefix(k, cfg.prefix)
  {
    var v :| v in vs && Resolve(v.name, cfg).promoted && Resolve(v.name, cfg).key == k;
    assert v.name[|cfg.prefix|..] == k;
  }

  /** For prefixed variables the promoted names do not matter. */
  lemma {:induction false} ExpectedPrefixedIgnoresOverrides(q: seq<Var>, o1: set<string>, o2: set<string>, cfg: Config)
    requires forall v :: v in q ==> HasPrefix(v.name, cfg.prefix)
    ensures Expected(q, o1, cfg) == Expected(q, o2, cfg)
    decreases |q|
  {
    if |q| > 0 {
      var n := |q| - 1;
      assert q == q[..n] + [q[n]];
      assert q[n] in q;
      assert forall v :: v in q[..n] ==> v in q;
      ExpectedPrefixedIgnoresOverrides(q[..n], o1, o2, cfg);
      ExpectedSnoc(q[..n], q[n], o1, cfg);
      ExpectedSnoc(q[..n], q[n], o2, cfg);
    }
  }

  /**
   The main theorem: scanning any order that puts the prefixed names first
   yields the reference output, and the override set ends up as the set of
   promoted names.
   */
  lemma {:induction false} ProcessMatchesExpected(p: seq<Var>, cfg: Config)
    requires NamePartitioned(p, cfg.prefix) && NoDoublePrefix(p, cfg.prefix)
    ensures Process(p, cfg).overrides == PromotedKeys(p, cfg)
    ensures Process(p, cfg).out == Expected(p, PromotedKeys(p, cfg), cfg)
    decreases |p|
  {
    if |p| > 0 {
      var n := |p| - 1;
      var q, x := p[..n], p[n];
      SplitLast(p, cfg.prefix);
      ProcessMatchesExpected(q, cfg);
      PromotedKeysSnoc(q, x, cfg);
      if HasPrefix(x.name, cfg.prefix) {
        ScanPrefixedStep(q, x, cfg);
      } else {
        ScanUnprefixedStep(q, x, cfg);
      }
    }
  }

  /** Dropping the last variable keeps the prefix discipline; if the last one is prefixed, all are. */
  lemma SplitLast(p: seq<Var>, prefix: string)
    requires |p| > 0 && NamePartitioned(p, prefix) && NoDoublePrefix(p, prefix)
    ensures var n := |p| - 1;
      && p == p[..n] + [p[n]]
      && NamePartitioned(p[..n], prefix) && NoDoublePrefix(p[..n], prefix)
      && (HasPrefix(p[n].name, prefix) ==> forall v :: v in p[..n] ==> HasPrefix(v.name, prefix))
  {
    var n := |p| - 1;
    assert forall v :: v in p[..n] ==> v in p;
    if HasPrefix(p[n].name, prefix) {
      assert forall i :: 0 <= i < n ==> HasPrefix(p[..n][i].name, prefix);
    }
  }

  /** The inductive step of the main theorem for a prefixed variable: it is always emitted. */
  lemma ScanPrefixedStep(q: seq<Var>, x: Var, cfg: Config)
    requires NoDoublePrefix(q, cfg.prefix) && HasPrefix(x.name, cfg.prefix)
    requires forall v :: v in q ==> HasPrefix(v.name, cfg.prefix)
    requires Process(q, cfg) == Scan(PromotedKeys(q, cfg), Expected(q, PromotedKeys(q, cfg), cfg))
    requires PromotedKeys(q + [x], cfg) ==
      PromotedKeys(q, cfg) + (if Resolve(x.name, cfg).promoted then {Resolve(x.name, cfg).key} else {})
    ensures Process(q + [x], cfg) ==
      Scan(PromotedKeys(q + [x], cfg), Expected(q + [x], PromotedKeys(q + [x], cfg), cfg))
  {
    var oq, op := PromotedKeys(q, cfg), PromotedKeys(q + [x], cfg);
    if x.name in oq {
      PromotedKeysUnprefixed(q, cfg, x.name);
    }
    ExpectedPrefixedIgnoresOverrides(q, oq, op, cfg);
    ExpectedSnoc(q, x, op, cfg);
    assert (q + [x])[..|q|] == q;
  }

  /** The inductive step of the main theorem for an unprefixed variable: dropped iff overridden. */
  lemma ScanUnprefixedStep(q: seq<Var>, x: Var, cfg: Config)
    requires !HasPrefix(x.name, cfg.prefix)
    requires Process(q, cfg) == Scan(PromotedKeys(q, cfg), Expected(q, PromotedKeys(q, cfg), cfg))
    requires PromotedKeys(q + [x], cfg) ==
      PromotedKeys(q, cfg) + (if Resolve(x.name, cfg).promoted then {Resolve(x.name, cfg).key} else {})
    ensures Process(q + [x], cfg) ==
      Scan(PromotedKeys(q + [x], cfg), Expected(q + [x], PromotedKeys(q + [x], cfg), cfg))
  {
    var o := PromotedKeys(q, cfg);
    assert !Resolve(x.name, cfg).promoted;
    assert PromotedKeys(q + [x], cfg) == o;
    ExpectedSnoc(q, x, o, cfg);
    assert (q + [x])[..|q|] == q;
    assert Process(q + [x], cfg) == Step(Process(q, cfg), x, cfg);
  }

  // ---------------------------------------------------------------------
  // The builder's output

  /**
   Whatever order the reordering step leaves inside the two groups, the scan
   emits the same variables, with the same multiplicities: those of the
   reference definition applied to the inherited environment.
   */
  lemma ReorderInsensitive(environ: seq<string>, p: seq<string>, cfg: Config)
    requires AllWellFormed(environ) && NoDoublePrefix(ParseAll(environ), cfg.prefix)
    requires Reordering(environ, p, cfg.prefix)
    ensures AllWellFormed(p)
    ensures var o := PromotedKeys(ParseAll(environ), cfg);
      multiset(ChildVars(p, cfg)) == multiset(Expected(ParseAll(environ), o, cfg))
  {
    SameVars(environ, p, cfg);
    PartitionedByName(p, cfg.prefix);
    ProcessMatchesExpected(ParseAll(p), cfg);
    ExpectedPermutation(ParseAll(environ), ParseAll(p), PromotedKeys(ParseAll(environ), cfg), cfg);
  }

  /** A reordering of the entries has the same variables, promoted names and prefix discipline. */
  lemma SameVars(environ: seq<string>, p: seq<string>, cfg: Config)
    requires AllWellFormed(environ) && multiset(p) == multiset(environ)
    ensures AllWellFormed(p)
    ensures multiset(ParseAll(environ)) == multiset(ParseAll(p))
    ensures PromotedKeys(ParseAll(p), cfg) == PromotedKeys(ParseAll(environ), cfg)
    ensures NoDoublePrefix(ParseAll(environ), cfg.prefix) ==> NoDoublePrefix(ParseAll(p), cfg.prefix)
  {
    WellFormedSameEntries(environ, p);
    ParseAllPermutation(environ, p);
    var vs, ps := ParseAll(environ), ParseAll(p);
    assert forall v :: v in ps <==> v in vs by {
      assert forall v :: v in ps <==> v in multiset(ps);
      assert forall v :: v in vs <==> v in multiset(vs);
    }
  }

  /**
   The exact output for whatever order the reordering step returns: the
   reference output of that order, with the promoted names of the inherited
   environment.
   */
  lemma ChildOrder(environ: seq<string>, p: seq<string>, cfg: Config)
    requires AllWellFormed(environ) && NoDoublePrefix(ParseAll(environ), cfg.prefix)
    requires Reordering(environ, p, cfg.prefix)
    ensures AllWellFormed(p)
    ensures ChildVars(p, cfg) == Expected(ParseAll(p), PromotedKeys(ParseAll(environ), cfg), cfg)
  {
    SameVars(environ, p, cfg);
    PartitionedByName(p, cfg.prefix);
    ProcessMatchesExpected(ParseAll(p), cfg);
  }

  /**
   Membership in the child's variables, for whatever order the reordering
   step returns, in terms of single inherited entries.
   */
  lemma ChildMembers(environ: seq<string>, p: seq<string>, cfg: Config, x: Var)
    requires AllWellFormed(environ) && NoDoublePrefix(ParseAll(environ), cfg.prefix)
    requires Reordering(environ, p, cfg.prefix)
    ensures AllWellFormed(p)
    ensures x in ChildVars(p, cfg) <==>
      exists v :: v in ParseAll(environ) && x in Contribution(v, PromotedKeys(ParseAll(environ), cfg), cfg)
  {
    ReorderInsensitive(environ, p, cfg);
    var r := ChildVars(p, cfg);
    assert x in r <==> x in multiset(r);
    ExpectedMembers(ParseAll(environ), PromotedKeys(ParseAll(environ), cfg), cfg, x);
  }
}

=== FILE: env_text.dfy ===
/**
 Text helpers for `KEY=VALUE` environment entries: prefix tests, prefix
 trimming and the split of an entry on its first `=`.
 */
module EnvText {

  /** True iff `p` is a prefix of `s`. */
  predicate HasPrefix(s: string, p: string) {
    |p| <= |s| && s[..|p|] == p
  }

  /** `s` without the leading `p`; `s` itself when `p` is not a prefix. */
  function TrimPrefix(s: string, p: string): (r: string)
    ensures HasPrefix(s, p) ==> p + r == s
    ensures !HasPrefix(s, p) ==> r == s
  {
    if HasPrefix(s, p) then
      assert s == s[..|p|] + s[|p|..];
      s[|p|..]
    else s
  }

  /** Index of the first occurrence of `c` in `s`, or `|s|` when there is none. */
  function FirstIndex(s: string, c: char): (r: nat)
    ensures r <= |s|
    ensures forall i :: 0 <= i < r ==> s[i] != c
    ensures r < |s| ==> s[r] == c
    ensures r < |s| <==> c in s
  {
    if |s| == 0 then 0
    else if s[0] == c then 0
    else 1 + FirstIndex(s[1..], c)
  }

  /** An environment entry the split on `=` can handle. */
  predicate WellFormed(e: string) {
    '=' in e
  }

  /** Every entry of `env` carries a `=`. */
  predicate AllWellFormed(env: seq<string>) {
    forall i :: 0 <= i < |env| ==> WellFormed(env[i])
  }

  /** Well-formedness depends only on which entries occur. */
  lemma WellFormedSameEntries(a: seq<string>, b: seq<string>)
    requires AllWellFormed(a) && multiset(b) <= multiset(a)
    ensures AllWellFormed(b)
  {
    assert forall e :: e in b ==> e in multiset(a);
    forall i | 0 <= i < |b|
      ensures WellFormed(b[i])
    {
      assert b[i] in b;
    }
  }

  /** The key: everything before the first `=`. */
  function Key(e: string): (k: string)
    requires WellFormed(e)
    ensures '=' !in k
    ensures |k| < |e| && e[..|k|] == k && e[|k|] == '='
  {
    var n := FirstIndex(e, '=');
    assert forall c :: c in e[..n] ==> c != '=';
    e[..n]
  }

  /** The value: everything after the first `=`, further `=` included. */
  function Value(e: string): (v: string)
    requires WellFormed(e)
    ensures Key(e) + "=" + v == e
  {
    var n := |Key(e)|;
    assert e == e[..n] + [e[n]] + e[n + 1..];
    e[n + 1..]
  }

  /** The entry `k=v`; splitting it gives back `k` and `v`. */
  function Join(k: string, v: string): (e: string)
    requires '=' !in k
    ensures WellFormed(e) && Key(e) == k && Value(e) == v
  {
    var e := k + "=" + v;
    assert e[|k|] == '=';
    var n := FirstIndex(e, '=');
    assert forall i :: 0 <= i < |k| ==> e[i] == k[i];
    assert n == |k|;
    assert e[..|k|] == k;
    e
  }
}
